=== FILE: README.md ===
# Lead-form intake script: a Dafny model

The repository is a Google Apps Script web app. Website forms post
submissions to it: name, email, phone, course interest, preferred time slot,
message and source. The script stores each one as a row of the
"Form Submissions" sheet and sends a confirmation mail. It also offers two
maintenance functions: per-day, per-week and per-source statistics, and
removal of rows marked as test data.

This project models the logic of `google-apps-script.js` that works on
values, with the spreadsheet and mail services abstracted:

- `Sheet` (sheet.dfy) models the sheet as a sequence of nine-cell rows. Row 0
  is the header. A `Workbook` records whether the spreadsheet can be opened
  and whether the sheet exists yet. This module also holds
  `getOrCreateSheet` and the 1-based `deleteRow`.
- `Fields` (fields.dfy) models the JavaScript value rules the script relies
  on: truthiness and `||` defaulting, template-literal interpolation of a
  missing field, and the empty cell that a missing value leaves.
- `FormData` (form_data.dfy) models the parsed request body. Every field
  may be missing.
- `Confirmation` (confirmation.dfy) models how `sendConfirmationEmail`
  chooses a template and fills in its values.
- `Intake` (intake.dfy) models `doPost`: building the row, appending it,
  best-effort mail, and the success or failure answer.
- `Stats` (stats.dfy) models `getSubmissionStats`. A loop counts the rows,
  checked against recursive reference counts and a sum over the per-source
  map. This module also holds the per-source counting as the script writes
  it; see Findings.
- `Cleanup` (cleanup.dfy) models `cleanupTestData`. A downward loop deletes
  rows one at a time from the live sheet. It is proved equal to filtering
  the "Test" rows out of the data rows while keeping the header.
- `Lifecycle` (lifecycle.dfy) shows how the operations compose. An intake
  adds exactly one counted row. A "Test" submission disappears again at the
  next cleanup. The first row written into an existing empty sheet is taken
  for the header.

Modelling choices: the clock (`new Date()`) and the calendar day of an
instant (`toDateString`) are parameters (`now`, `day`). Whether the mail
service accepted a message is the parameter `mailDelivered`. The
`Request` datatype says whether `JSON.parse` succeeded and whether it
produced `null`.

Four behaviours of the code are easy to miss:

- A body that fails to parse also gets the failure answer, and nothing is
  written.
- A body that parses to `null` gets past `getOrCreateSheet`, so a missing
  sheet is created with its header, and only then fails at
  `data.timestamp`.
- The confirmation mail interpolates the time slot without a default. A
  missing slot is stored as "To be scheduled" but mailed as "undefined".
- In a sheet that exists but is empty, the first appended row lands where
  the header is expected. Statistics and cleanup then skip that row.

The model follows the code in all four cases.

## Model

| member | source | states |
|---|---|---|
| Fields.Or | google-apps-script.js:33-34 | `f \|\| fallback` yields the field when it is truthy and the fallback when it is missing or empty |
| Sheet.GetOrCreateSheet | google-apps-script.js:63-135 | If the spreadsheet cannot be opened, the call fails with the fixed "Could not access Google Sheet" message. An existing sheet is returned unchanged. A missing sheet is created holding only the nine-title header row |
| Sheet.GetOrCreateSheetIdempotent | google-apps-script.js:66-70 | After the first call's sheet is stored, opening again returns the same rows. Opening an existing sheet changes nothing |
| Sheet.InstantOf | google-apps-script.js:234 | Only a date cell denotes an instant; any other cell gives an Invalid Date |
| Sheet.DeleteRow | google-apps-script.js:297 | Deleting 1-based row n removes exactly that row. Rows above it keep their index and rows below it move up by one |
| Intake.BuildRow | google-apps-script.js:27-37 | The row holds the nine fields in header order. A missing field becomes an empty cell. A falsy time slot is stored as "To be scheduled" and a falsy message as "". Truthy values are stored unchanged, and the status is always "Pending" |
| Intake.DoPost | google-apps-script.js:18-55 | The answer is success exactly when the body parses to a non-null value and the sheet opens. On failure the answer carries the error and nothing is mailed. A failure writes nothing, except that a `null` body on an openable spreadsheet leaves behind the sheet that `getOrCreateSheet` created. A sheet that already existed is never changed by a failure. On success the sheet grows by one row, the existing rows (a new header included) are unchanged, and the built row is last. The mail is attempted and the answer is success whatever the mail service did |
| Intake.TimestampCell | google-apps-script.js:28 | The Timestamp cell denotes the submitted instant, or an Invalid Date when the submitted value is missing or unparseable |
| Intake.NullBodyCreatesSheet | google-apps-script.js:21-28 | A `null` body on a spreadsheet without the sheet fails with the TypeError from `data.timestamp`, and leaves the new sheet holding only the header |
| Fields.Interpolate | google-apps-script.js:145-182 | `${f}` yields the string itself, and the word "undefined" for a missing field |
| Intake.MailFailureIsSwallowed | google-apps-script.js:203-206 | The mail outcome changes neither the sheet nor the answer nor the mail that was attempted |
| Intake.MailAgreesWithRow | google-apps-script.js:171-183 | In the general template, the message line equals the stored Message cell, and an empty cell shows as "None". A missing time slot is stored as "To be scheduled" but mailed as "undefined" |
| Confirmation.ConfirmationEmail | google-apps-script.js:139-201 | The hero template is chosen exactly when source is the string "Hero Section Form"; everything else gets the general template. The mail goes to the submitted address with the fixed subject. A falsy message reads "None" |
| Stats.CountToday | google-apps-script.js:238-240 | The number of rows dated today never exceeds the number of rows |
| Stats.CountSince | google-apps-script.js:241-243 | The number of rows dated within the week never exceeds the number of rows |
| Stats.Bump | google-apps-script.js:246 | Counting a source adds one to its count (a missing key counts from 0) and leaves every other count alone |
| Stats.TallyIsOccurrences | google-apps-script.js:245-246 | The per-source map holds exactly the Source values that occur in the data rows, each mapped to its number of occurrences |
| Stats.TallySum | google-apps-script.js:229-246 | The per-source counts add up to the number of data rows |
| Stats.ComputeStats | google-apps-script.js:213-254 | With at most one row, every count is 0 and the map is empty. Otherwise the header is skipped and total is the row count minus one. today and thisWeek count exactly the valid timestamps on the current day and at or after now minus 7×24 h, and both are at most total. The per-source map matches the occurrences and sums to total |
| Stats.GetSubmissionStats | google-apps-script.js:210-259 | If the spreadsheet cannot be opened, the result is null (None) and nothing changes. Otherwise the sheet is opened, or created, and counted as `ComputeStats` states. total is the number of data rows. today and thisWeek are the reference counts and at most total. The per-source map matches the occurrences and sums to total. A sheet that did not exist yet gives all-zero counts |
| Stats.TodayWithinWeek | google-apps-script.js:224-243 | When no instant of now's calendar day lies more than seven days before now, today <= thisWeek. Every real calendar day meets that, daylight-saving days included |
| Stats.BumpAsWritten | google-apps-script.js:246 | On the script's plain object, a row with source "__proto__" is not recorded under any key. A fresh name inherited from `Object.prototype`, such as "toString", gets a string instead of a count, and it stays a string. Every other key counts up from 1, and no other key changes |
| Stats.TallyAsWritten | google-apps-script.js:229-246 | The per-source object the script builds never holds the key "__proto__" |
| Stats.ScriptView | google-apps-script.js:229-246 | Starting from the correct counts, the script's view drops "__proto__", shows a string for every other inherited name, and shows the count itself for every other key |
| Stats.BumpAsWrittenIsViewOfBump | google-apps-script.js:246 | The script's update of its object, applied to the script's view of the correct counts, equals the view of the correctly updated counts |
| Stats.TallyAsWrittenIsScriptView | google-apps-script.js:229-246 | For every sheet, the script's per-source object equals its view of the corrected counts. It differs from them only at "__proto__", which is missing, and at the other inherited names, which hold strings |
| Stats.TallyAsWrittenAgreesWithoutInherited | google-apps-script.js:229-246 | When no data row's source names an `Object.prototype` member, the script's per-source object holds exactly the correct counts |
| Stats.ProtoSourceIsLost | google-apps-script.js:229-253 | Take one data row whose source is "__proto__". The script reports total 1, but its per-source object is empty, while the corrected counts sum to 1 |
| Stats.InheritedSourceIsNotCounted | google-apps-script.js:229-253 | Take one data row whose source is "toString". The script stores a string under that key, while the corrected count is 1 |
| Cleanup.CountTestRows | google-apps-script.js:296 | The number of rows whose Source is the text "Test" never exceeds the number of rows |
| Cleanup.WithoutTestRows | google-apps-script.js:295-299 | Filtering removes exactly as many rows as there are "Test" rows |
| Cleanup.WithoutTestRowsMembers | google-apps-script.js:296 | A row survives exactly when it was present and is not a "Test" row |
| Cleanup.WithoutTestRowsAppend | google-apps-script.js:295-299 | Filtering a concatenation filters each part, so the surviving rows keep their order |
| Cleanup.WithoutTestRowsIdempotent | google-apps-script.js:295-299 | Filtering twice is the same as filtering once |
| Cleanup.CleanedProperties | google-apps-script.js:295-299 | The header row is kept. The length drops by the number of "Test" data rows. The remaining data rows are exactly the non-test ones. A second cleanup changes nothing |
| Cleanup.DeleteTestRows | google-apps-script.js:292-299 | Deleting downwards leaves exactly the header followed by the non-test data rows in their original order. The length drops by the number of "Test" data rows. Each `deleteRow(i + 1)` removes the original row i |
| Cleanup.CleanupTestData | google-apps-script.js:289-305 | If the spreadsheet cannot be opened, nothing changes. Otherwise the (possibly new) sheet becomes its cleaned form, and a new sheet is just the header |
| Lifecycle.RowsAfter | google-apps-script.js:24-40 | After a successful intake, the sheet is the opened sheet with the built row appended |
| Lifecycle.IntakeCountsOnce | google-apps-script.js:232-250 | After one intake into a sheet with a header, total grows by one and the submission's source gains one occurrence while every other source is unchanged. today and thisWeek each grow by one exactly when the new timestamp qualifies |
| Lifecycle.TestIntakeIsCleanedAway | google-apps-script.js:295-299 | Cleaning after a "Test" intake gives the same sheet as cleaning before it |
| Lifecycle.FirstRowOfEmptySheetIsTakenForHeader | google-apps-script.js:40 | In an existing empty sheet, the appended row becomes row 1. It has no data rows under it, and cleanup keeps it |
| Lifecycle.TestIntakeOnNewSheet | google-apps-script.js:24-40 | A "Test" intake into a sheet that did not exist leaves the header and that row, and cleanup then leaves only the header |

## Left out

- `JSON.parse` and `e.postData.contents`: the request is a parsed `Submission`, `null`, or an error message. A body that parses to a number, string, boolean or array reads every field as `undefined`, so it is a submission with every field Absent.
- Submission fields that JSON gives as numbers, booleans or null: a field is modelled as either missing or a string.
- `ContentService` answer construction: the answer is the `Response` datatype.
- `MailApp.sendEmail` is a foreign call. Its outcome is the parameter `mailDelivered`. Only the template choice and the values filled in are modelled, not the fixed prose.
- Header styling, column widths and conditional-format rules (lines 85-127) are presentation only. Only the header titles are modelled.
- `doGet` and `testScript` are a fixed liveness answer and a manual driver. The `Lifecycle` lemmas cover what the driver exercises.
- `console.log` and `console.error` output is not modelled.
- Failures of `appendRow`, `getDataRange` or `deleteRow` are not modelled; only `openById` failing is. A stats call returns null for any thrown error, but only the sheet-access failure is modelled.
- Sheet.InstantOf: a non-empty text cell in the Timestamp column is read as an invalid date. JavaScript's `Date` string parsing and time zones are not modelled. The calendar day is an arbitrary function `day`, and `now` is a parameter.
- Stats.BumpAsWritten: the string the script stores under an inherited name (for example "function toString() { [native code] }1") is represented as `Concatenated`, without its text.
- Stats.ComputeStats: the per-source map is the corrected count, keyed by cell, not by the cell's string form. So two cells with the same string form, such as a date cell and a text cell holding that date's text, stay separate in the model. It also gives a count for rows whose source is "__proto__" or another `Object.prototype` member, where the script drops the row or stores a string (see Findings); the as-written count is `Stats.TallyAsWritten`.
- Stats.GetSubmissionStats: returns the per-source map of `Stats.ComputeStats`, so it shares that map's corrected, cell-keyed counting. Rows whose source is "__proto__" or another `Object.prototype` member get counts, whereas the script drops them or stores strings (see Findings).
- Sheets wider or narrower than the nine columns are not modelled.
- Two concurrent requests can race to create the sheet. That is platform concurrency, and the script does not address it.

## Findings

| source | as written | input that shows it | evidently intended | confidence | as-written member | corrected member |
|---|---|---|---|---|---|---|
| google-apps-script.js:246 | Sources are counted into a plain object. A key "__proto__" reaches the prototype accessor, so its count is never stored. Any other name inherited from `Object.prototype` reads a function, so `+ 1` stores a string instead of a count | one data row whose Source cell is "__proto__", or one whose Source cell is "toString" | every data row counted once under its source, the counts summing to `total` | not executed; high (standard JavaScript object semantics) | Stats.TallyAsWritten, Stats.ProtoSourceIsLost, Stats.InheritedSourceIsNotCounted | Stats.ComputeStats, Stats.GetSubmissionStats |

=== FILE: cleanup.dfy ===
/** `cleanupTestData`: deletes, one `deleteRow` call at a time and walking
    from the last row up to row 1, every data row whose Source cell is the
    string "Test". The header row is never looked at. */
module Cleanup {
  import opened Optional
  import opened Sheet
  import opened FormData

  /** `data[i][7] === 'Test'`: only a text cell equal to "Test" matches. */
  predicate IsTestRow(r: Row) {
    r[SourceCol] == Text(TestSource)
  }

  /** Number of test rows in `rs`. */
  function CountTestRows(rs: seq<Row>): (n: nat)
    ensures n <= |rs|
  {
    if rs == [] then 0 else (if IsTestRow(rs[0]) then 1 else 0) + CountTestRows(rs[1..])
  }

  /** The rows of `rs` that are not test rows, in their original order. */
  function WithoutTestRows(rs: seq<Row>): (r: seq<Row>)
    ensures |r| == |rs| - CountTestRows(rs)
  {
    if rs == [] then []
    else (if IsTestRow(rs[0]) then [] else [rs[0]]) + WithoutTestRows(rs[1..])
  }

  /** The sheet `cleanupTestData` should leave: the header row as it was,
      followed by the non-test data rows in order. */
  function Cleaned(data: seq<Row>): (r: seq<Row>)
  {
    if data == [] then [] else [data[0]] + WithoutTestRows(data[1..])
  }

  /** A row survives the filter exactly when it is in `rs` and is not a
      test row. */
  lemma {:induction false} WithoutTestRowsMembers(rs: seq<Row>, x: Row)
    ensures x in WithoutTestRows(rs) <==> x in rs && !IsTestRow(x)
  {
    if rs != [] {
      WithoutTestRowsMembers(rs[1..], x);
      assert rs == [rs[0]] + rs[1..];
    }
  }

  /** Filtering distributes over concatenation, so it keeps the relative
      order of the surviving rows. */
  lemma {:induction false} WithoutTestRowsAppend(a: seq<Row>, b: seq<Row>)
    ensures WithoutTestRows(a + b) == WithoutTestRows(a) + WithoutTestRows(b)
  {
    if a == [] {
      assert a + b == b;
    } else {
      assert (a + b)[1..] == a[1..] + b;
      WithoutTestRowsAppend(a[1..], b);
    }
  }

  /** Filtering twice is filtering once. */
  lemma {:induction false} WithoutTestRowsIdempotent(rs: seq<Row>)
    ensures WithoutTestRows(WithoutTestRows(rs)) == WithoutTestRows(rs)
  {
    if rs != [] {
      WithoutTestRowsIdempotent(rs[1..]);
      var head := if IsTestRow(rs[0]) then [] else [rs[0]];
      WithoutTestRowsAppend(head, WithoutTestRows(rs[1..]));
      if !IsTestRow(rs[0]) {
        assert [rs[0]][1..] == [];
      }
    }
  }

  /** The cleaned sheet keeps its header, drops exactly the test data rows,
      and running the cleanup again changes nothing. */
  lemma CleanedProperties(data: seq<Row>)
    ensures |data| > 0 ==> |Cleaned(data)| > 0 && Cleaned(data)[0] == data[0]
    ensures |Cleaned(data)| == |data| - CountTestRows(DataRows(data))
    ensures forall r :: r in DataRows(Cleaned(data)) <==> r in DataRows(data) && !IsTestRow(r)
    ensures Cleaned(Cleaned(data)) == Cleaned(data)
  {
    if data != [] {
      WithoutTestRowsIdempotent(data[1..]);
      assert Cleaned(data)[1..] == WithoutTestRows(data[1..]);
      forall r | true
        ensures r in DataRows(Cleaned(data)) <==> r in DataRows(data) && !IsTestRow(r)
      {
        WithoutTestRowsMembers(data[1..], r);
      }
    }
  }

  /** Filtering the suffix from `i` on is deciding on row `i` and filtering
      the suffix from `i + 1` on; the invariant of the loop below rests on it. */
  lemma WithoutTestRowsStep(data: seq<Row>, i: nat)
    requires i < |data|
    ensures data[..i] + WithoutTestRows(data[i..]) ==
      data[..i] + (if IsTestRow(data[i]) then [] else [data[i]]) + WithoutTestRows(data[i + 1..])
  {
  }

  /** Deleting the last row of a prefix removes exactly that row. */
  lemma DeletePrefixLast(prefix: seq<Row>, rest: seq<Row>)
    requires |prefix| >= 1
    ensures DeleteRow(prefix + rest, |prefix|) == prefix[..|prefix| - 1] + rest
  {
  }

  /** The deletion loop of `cleanupTestData`, over the sheet's rows `data`
      as read before the loop. Since it walks downwards, every row deleted
      so far lies below row `i`, so `deleteRow(i + 1)` still addresses the
      original row `i`. */
  method DeleteTestRows(data: seq<Row>) returns (sheet: seq<Row>)
    ensures sheet == Cleaned(data)
    ensures |data| > 0 ==> |sheet| > 0 && sheet[0] == data[0]
    ensures |sheet| == |data| - CountTestRows(DataRows(data))
  {
    sheet := data;
    var i := |data| - 1;
    while i >= 1
      invariant 0 <= i + 1 <= |data|
      invariant |data| > 0 ==> i >= 0
      invariant sheet == data[..i + 1] + WithoutTestRows(data[i + 1..])
    {
      WithoutTestRowsStep(data, i);
      if IsTestRow(data[i]) {
        // Only rows below row i have been deleted so far, so the live
        // sheet's row i (spreadsheet row i + 1) is still the original one.
        assert sheet[i] == data[i];
        DeletePrefixLast(data[..i + 1], WithoutTestRows(data[i + 1..]));
        sheet := DeleteRow(sheet, i + 1);
      }
      i := i - 1;
    }
    CleanedProperties(data);
  }

  /** `cleanupTestData`: when the spreadsheet cannot be opened the error is
      caught and nothing changes; otherwise the (possibly just created)
      sheet is cleaned. */
  method CleanupTestData(wb: Workbook) returns (after: Workbook)
    ensures !wb.reachable ==> after == wb
    ensures wb.reachable ==> after == Store(wb, Cleaned(GetOrCreateSheet(wb).rows))
    ensures wb.reachable && wb.sheet.None? ==> after.sheet == Some([Header])
  {
    match GetOrCreateSheet(wb)
    case AccessFailed(_) =>
      return wb;
    case Opened(rows) =>
      var cleaned := DeleteTestRows(rows);
      return Store(wb, cleaned);
  }
}

=== FILE: confirmation.dfy ===
/** `sendConfirmationEmail`: which of the two templates the confirmation mail
    uses and which field values it fills in. The fixed prose of the
    templates is not modelled. */
module Confirmation {
  import opened Fields
  import opened FormData

  const Subject: string := "Career Consultation Request Confirmation - TechAcademy"

  /** The variable parts of the mail body. Both templates list name, email,
      phone and course; only the general booking template lists the
      preferred time and the message. */
  datatype Body =
    | HeroBody(name: string, email: string, phone: string, course: string)
    | GeneralBody(name: string, email: string, phone: string, course: string,
                  preferredTime: string, message: string)

  datatype Email = Email(to: Field, subject: string, body: Body)

  /** The confirmation mail for a submission. The hero template is chosen
      exactly when `source` is the string "Hero Section Form" (strict
      equality: a missing source is not it). In the general template the
      preferred time is interpolated as is, so a missing slot reads
      "undefined", while a falsy message reads "None". */
  function ConfirmationEmail(s: Submission): (e: Email)
    ensures e.to == s.email && e.subject == Subject
    ensures e.body.HeroBody? <==> s.source == Str(HeroSource)
    ensures e.body.name == Interpolate(s.name) && e.body.email == Interpolate(s.email)
    ensures e.body.phone == Interpolate(s.phone) && e.body.course == Interpolate(s.course)
    ensures e.body.GeneralBody? ==> e.body.preferredTime == Interpolate(s.timeSlot)
    ensures e.body.GeneralBody? && Truthy(s.message) ==> e.body.message == s.message.s
    ensures e.body.GeneralBody? && !Truthy(s.message) ==> e.body.message == "None"
  {
    var name := Interpolate(s.name);
    var email := Interpolate(s.email);
    var phone := Interpolate(s.phone);
    var course := Interpolate(s.course);
    var body :=
      if s.source == Str(HeroSource) then HeroBody(name, email, phone, course)
      else GeneralBody(name, email, phone, course,
                       Interpolate(s.timeSlot), Or(s.message, "None"));
    Email(s.email, Subject, body)
  }
}

=== FILE: fields.dfy ===
/** The JavaScript value semantics the script relies on when it reads a field
    of the parsed request body: a field is either missing (`undefined`) or a
    string. */
module Fields {

  datatype Field = Absent | Str(s: string)

  /** JavaScript truthiness of a field: `undefined` and the empty string are
      falsy, every other string is truthy. */
  predicate Truthy(f: Field) {
    f.Str? && f.s != ""
  }

  /** The value of `f || fallback`: the field itself when it is truthy,
      otherwise the fallback. */
  function Or(f: Field, fallback: string): (r: string)
    ensures Truthy(f) ==> r == f.s
    ensures !Truthy(f) ==> r == fallback
    ensures r == "" ==> !Truthy(f) && fallback == ""
  {
    if Truthy(f) then f.s else fallback
  }

  /** The text a template literal `${f}` produces: the string itself, or the
      word `undefined` for a missing field. */
  function Interpolate(f: Field): (r: string)
    ensures f.Str? ==> r == f.s
    ensures f.Absent? ==> r == "undefined"
  {
    match f
    case Absent => "undefined"
    case Str(s) => s
  }

  /** The text a missing or string value leaves in a spreadsheet cell:
      `undefined` is written as an empty cell. */
  function CellText(f: Field): (r: string)
    ensures f.Str? ==> r == f.s
    ensures f.Absent? ==> r == ""
  {
    match f
    case Absent => ""
    case Str(s) => s
  }
}

=== FILE: form_data.dfy ===
/** The parsed request body of a form submission. Every field may be missing:
    the script validates nothing. */
module FormData {
  import opened Fields

  /** `timestamp` is the instant `new Date(data.timestamp)` denotes: NoDate
      when the value is missing or does not parse as a date, otherwise the
      milliseconds since the epoch. */
  datatype TimestampField = NoDate | Instant(ms: int)

  datatype Submission = Submission(
    timestamp: TimestampField,
    name: Field,
    email: Field,
    phone: Field,
    course: Field,
    timeSlot: Field,
    message: Field,
    source: Field)

  /** The `source` value the landing-page hero form sends. */
  const HeroSource: string := "Hero Section Form"

  /** The `source` value that marks synthetic submissions for cleanup. */
  const TestSource: string := "Test"
}

=== FILE: intake.dfy ===
/** `doPost`: turns a submission into a sheet row, appends it, sends the
    confirmation mail on a best-effort basis and answers with a success or
    failure response. */
module Intake {
  import opened Optional
  import opened Fields
  import opened Sheet
  import opened FormData
  import opened Confirmation

  const DefaultTimeSlot: string := "To be scheduled"
  const PendingStatus: string := "Pending"
  const SavedMessage: string := "Data saved successfully"

  /** The request body: `JSON.parse` produced a submission, or it produced
      `null`, or it threw with the given message. A body that parses to
      another non-object value reads every field as `undefined`, which is a
      submission with every field Absent. */
  datatype Request = Parsed(data: Submission) | ParsedNull | Unparseable(error: string)

  /** What V8 throws at `data.timestamp` when the body was `null`. */
  const NullBodyError: string := "TypeError: Cannot read properties of null (reading 'timestamp')"

  /** The JSON answer: `{success: true, message}` or `{success: false, error}`. */
  datatype Response = Saved(message: string) | Failed(error: string)

  /** Everything one `doPost` call leaves behind: the workbook afterwards,
      the answer, the confirmation mail it tried to send (if it got that
      far) and whether the mail service accepted it. */
  datatype PostOutcome = PostOutcome(workbook: Workbook, response: Response,
                                     email: Option<Email>, emailSent: bool)

  /** The cell `new Date(data.timestamp)` leaves in the Timestamp column. */
  function TimestampCell(t: TimestampField): (c: Cell)
    ensures t.Instant? ==> InstantOf(c) == Some(t.ms)
    ensures t.NoDate? ==> InstantOf(c) == None
  {
    match t
    case Instant(ms) => Time(ms)
    case NoDate => InvalidTime
  }

  /** The nine-cell row `doPost` appends, in header order. Missing fields
      become empty cells; a falsy time slot becomes "To be scheduled" and a
      falsy message the empty string; the status is always "Pending". */
  function BuildRow(s: Submission): (r: Row)
    ensures InstantOf(r[TimestampCol]) == (if s.timestamp.Instant? then Some(s.timestamp.ms) else None)
    ensures r[NameCol] == Text(CellText(s.name))
    ensures r[EmailCol] == Text(CellText(s.email))
    ensures r[PhoneCol] == Text(CellText(s.phone))
    ensures r[CourseCol] == Text(CellText(s.course))
    ensures Truthy(s.timeSlot) ==> r[TimeSlotCol] == Text(s.timeSlot.s)
    ensures !Truthy(s.timeSlot) ==> r[TimeSlotCol] == Text(DefaultTimeSlot)
    ensures Truthy(s.message) ==> r[MessageCol] == Text(s.message.s)
    ensures !Truthy(s.message) ==> r[MessageCol] == Text("")
    ensures r[SourceCol] == Text(CellText(s.source))
    ensures r[StatusCol] == Text(PendingStatus)
  {
    [ TimestampCell(s.timestamp),
      Text(CellText(s.name)),
      Text(CellText(s.email)),
      Text(CellText(s.phone)),
      Text(CellText(s.course)),
      Text(Or(s.timeSlot, DefaultTimeSlot)),
      Text(Or(s.message, "")),
      Text(CellText(s.source)),
      Text(PendingStatus) ]
  }

  /** `doPost`. A body that does not parse and a spreadsheet that cannot be
      opened both end in `{success: false}` with nothing written and no
      mail. A `null` body gets as far as opening the sheet, so a missing
      sheet is created with its header, and then fails. Otherwise the row is
      appended after the existing rows (after a freshly written header if
      the sheet had to be created), the confirmation mail is attempted, and
      the answer is success whatever the mail service did. */
  function DoPost(wb: Workbook, req: Request, mailDelivered: bool): (r: PostOutcome)
    ensures r.response.Saved? <==> req.Parsed? && wb.reachable
    ensures r.response.Saved? ==> r.response.message == SavedMessage
    ensures req.Unparseable? ==> r.response == Failed(req.error)
    ensures !req.Unparseable? && !wb.reachable ==> r.response == Failed(SheetAccessError)
    ensures req.ParsedNull? && wb.reachable ==>
      r.response == Failed(NullBodyError) && r.workbook == Store(wb, GetOrCreateSheet(wb).rows)
    ensures r.response.Failed? ==> r.email == None && !r.emailSent
    ensures r.response.Failed? && !(req.ParsedNull? && wb.reachable) ==> r.workbook == wb
    ensures r.response.Failed? && wb.sheet.Some? ==> r.workbook == wb
    ensures r.response.Saved? ==>
      var before := GetOrCreateSheet(wb).rows;
      && r.workbook.reachable
      && r.workbook.sheet.Some?
      && |r.workbook.sheet.value| == |before| + 1
      && r.workbook.sheet.value[..|before|] == before
      && r.workbook.sheet.value[|before|] == BuildRow(req.data)
    ensures r.response.Saved? ==>
      r.email == Some(ConfirmationEmail(req.data)) && r.emailSent == mailDelivered
  {
    match req
    case Unparseable(error) => PostOutcome(wb, Failed(error), None, false)
    case ParsedNull =>
      (match GetOrCreateSheet(wb)
       case AccessFailed(error) => PostOutcome(wb, Failed(error), None, false)
       case Opened(rows) => PostOutcome(Store(wb, rows), Failed(NullBodyError), None, false))
    case Parsed(data) =>
      match GetOrCreateSheet(wb)
      case AccessFailed(error) => PostOutcome(wb, Failed(error), None, false)
      case Opened(rows) =>
        var after := Store(wb, rows + [BuildRow(data)]);
        PostOutcome(after, Saved(SavedMessage), Some(ConfirmationEmail(data)), mailDelivered)
  }

  /** The mail service's verdict changes nothing but `emailSent`: the sheet
      and the answer are the same whether the mail went out or not. */
  lemma MailFailureIsSwallowed(wb: Workbook, req: Request)
    ensures DoPost(wb, req, false).response == DoPost(wb, req, true).response
    ensures DoPost(wb, req, false).workbook == DoPost(wb, req, true).workbook
    ensures DoPost(wb, req, false).email == DoPost(wb, req, true).email
    ensures !DoPost(wb, req, false).emailSent
  {
  }

  /** The general template's message line agrees with the stored Message
      cell, except that an empty cell is shown as "None". The preferred time
      does not agree in the same way: a missing slot is stored as
      "To be scheduled" but mailed as "undefined". */
  lemma MailAgreesWithRow(s: Submission)
    requires s.source != Str(HeroSource)
    ensures ConfirmationEmail(s).body.GeneralBody?
    ensures BuildRow(s)[MessageCol] == Text("") ==> ConfirmationEmail(s).body.message == "None"
    ensures BuildRow(s)[MessageCol] != Text("") ==>
      BuildRow(s)[MessageCol] == Text(ConfirmationEmail(s).body.message)
    ensures s.timeSlot == Absent ==>
      BuildRow(s)[TimeSlotCol] == Text(DefaultTimeSlot)
      && ConfirmationEmail(s).body.preferredTime == "undefined"
  {
  }

  /** A `null` body still runs `getOrCreateSheet` before it fails: on a
      spreadsheet without the sheet, the sheet is left behind holding only
      the header, and no submission row is written. */
  lemma NullBodyCreatesSheet(wb: Workbook, mailDelivered: bool)
    requires wb.reachable && wb.sheet.None?
    ensures DoPost(wb, ParsedNull, mailDelivered).response == Failed(NullBodyError)
    ensures DoPost(wb, ParsedNull, mailDelivered).workbook.sheet == Some([Header])
  {
  }
}

=== FILE: lifecycle.dfy ===
/** How the operations compose over a sheet's lifetime: what a successful
    intake does to the statistics and to a later cleanup. */
module Lifecycle {
  import opened Optional
  import opened Fields
  import opened Sheet
  import opened FormData
  import opened Intake
  import opened Stats
  import opened Cleanup

  /** The rows of the sheet after an intake that succeeded. */
  function RowsAfter(wb: Workbook, s: Submission, mailDelivered: bool): (rows: seq<Row>)
    requires wb.reachable
    ensures rows == GetOrCreateSheet(wb).rows + [BuildRow(s)]
  {
    var r := DoPost(wb, Parsed(s), mailDelivered);
    assert r.workbook.sheet.value == GetOrCreateSheet(wb).rows + [BuildRow(s)];
    r.workbook.sheet.value
  }

  /** A successful intake into a sheet that has its header adds one data
      row: `total` grows by one, the submission's Source value gains one
      occurrence, every other source keeps its count, and `today` and
      `thisWeek` grow by one exactly when the new timestamp qualifies. */
  lemma {:induction false} IntakeCountsOnce(wb: Workbook, s: Submission, mailDelivered: bool,
                                            now: int, day: int -> int, k: Cell)
    requires wb.reachable
    requires |GetOrCreateSheet(wb).rows| >= 1
    ensures var before := DataRows(GetOrCreateSheet(wb).rows);
      var after := DataRows(RowsAfter(wb, s, mailDelivered));
      && |after| == |before| + 1
      && Occurrences(after, k) == Occurrences(before, k) + (if k == Text(CellText(s.source)) then 1 else 0)
      && CountToday(after, now, day) == CountToday(before, now, day) + (if IsToday(BuildRow(s), now, day) then 1 else 0)
      && CountSince(after, now - WeekMs) == CountSince(before, now - WeekMs) + (if IsSince(BuildRow(s), now - WeekMs) then 1 else 0)
  {
    var rows := GetOrCreateSheet(wb).rows;
    var before := DataRows(rows);
    var after := DataRows(RowsAfter(wb, s, mailDelivered));
    assert after == before + [BuildRow(s)];
    assert after[..|after| - 1] == before;
    OccurrencesAppend(before, BuildRow(s), k);
  }

  /** A submission whose source is "Test" leaves no trace once the cleanup
      has run: cleaning the sheet after the intake gives the same rows as
      cleaning it before. */
  lemma {:induction false} TestIntakeIsCleanedAway(wb: Workbook, s: Submission, mailDelivered: bool)
    requires wb.reachable
    requires |GetOrCreateSheet(wb).rows| >= 1
    requires s.source == Str(TestSource)
    ensures Cleaned(RowsAfter(wb, s, mailDelivered)) == Cleaned(GetOrCreateSheet(wb).rows)
  {
    var rows := GetOrCreateSheet(wb).rows;
    var row := BuildRow(s);
    assert IsTestRow(row);
    assert (rows + [row])[1..] == rows[1..] + [row];
    WithoutTestRowsAppend(rows[1..], [row]);
    assert [row][1..] == [];
  }

  /** The first submission into an existing but empty sheet lands in row 1,
      where the header is expected: the statistics then skip it and the
      cleanup never removes it, even when its source is "Test". */
  lemma FirstRowOfEmptySheetIsTakenForHeader(wb: Workbook, s: Submission, mailDelivered: bool)
    requires wb.reachable && wb.sheet == Some([])
    ensures RowsAfter(wb, s, mailDelivered) == [BuildRow(s)]
    ensures DataRows(RowsAfter(wb, s, mailDelivered)) == []
    ensures Cleaned(RowsAfter(wb, s, mailDelivered)) == [BuildRow(s)]
  {
  }

  /** Intake followed by cleanup on a freshly created sheet: a "Test"
      submission is appended below the new header, and cleaning leaves the
      header alone. */
  lemma TestIntakeOnNewSheet(wb: Workbook, s: Submission, mailDelivered: bool)
    requires wb.reachable && wb.sheet.None?
    requires s.source == Str(TestSource)
    ensures RowsAfter(wb, s, mailDelivered) == [Header, BuildRow(s)]
    ensures Cleaned(RowsAfter(wb, s, mailDelivered)) == [Header]
  {
  }
}

=== FILE: optional.dfy ===
/** Optional values, used for things that may be missing: a sheet that has
    not been created yet, a date that does not parse, statistics that could
    not be computed. */
module Optional {

  datatype Option<+T> = None | Some(value: T)
}

=== FILE: sheet.dfy ===
/** The "Form Submissions" sheet as the script sees it: a sequence of rows of
    nine cells, row 0 being the header that `getOrCreateSheet` writes when it
    creates the sheet. Rows are addressed 0-based here; the spreadsheet's own
    row numbers (used by `deleteRow`) are 1-based. */
module Sheet {
  import opened Optional

  /** A cell value as `getValues` returns it. An empty cell reads as the
      empty string. `InvalidTime` is what a `Date` that did not parse leaves
      behind. */
  datatype Cell = Text(s: string) | Time(ms: int) | InvalidTime

  const Width: nat := 9

  const TimestampCol: nat := 0
  const NameCol: nat := 1
  const EmailCol: nat := 2
  const PhoneCol: nat := 3
  const CourseCol: nat := 4
  const TimeSlotCol: nat := 5
  const MessageCol: nat := 6
  const SourceCol: nat := 7
  const StatusCol: nat := 8

  type Row = r: seq<Cell> | |r| == Width witness seq(Width, _ => Text(""))

  /** The header row `getOrCreateSheet` writes: the column titles, in
      column order. */
  const Header: Row :=
    [Text("Timestamp"), Text("Name"), Text("Email"), Text("Phone"),
     Text("Course Interest"), Text("Preferred Time Slot"), Text("Message"),
     Text("Source"), Text("Status")]

  /** The message `getOrCreateSheet` rethrows, as `error.toString()` renders it. */
  const SheetAccessError: string :=
    "Error: Could not access Google Sheet. Please check the SHEET_ID."

  /** The spreadsheet behind SHEET_ID: whether `openById` succeeds, and the
      rows of the "Form Submissions" sheet if that sheet exists. */
  datatype Workbook = Workbook(reachable: bool, sheet: Option<seq<Row>>)

  /** What `getOrCreateSheet` hands its caller. */
  datatype Access = Opened(rows: seq<Row>) | AccessFailed(error: string)

  /** The instant `new Date(cell)` denotes, or None for an Invalid Date.
      Only date cells denote an instant; an empty cell does not. */
  function InstantOf(c: Cell): (r: Option<int>)
    ensures r.Some? <==> c.Time?
    ensures r.Some? ==> r.value == c.ms
  {
    match c
    case Time(ms) => Some(ms)
    case _ => None
  }

  /** The rows after the header: every row but the first. */
  function DataRows(data: seq<Row>): (r: seq<Row>)
    ensures |data| <= 1 ==> r == []
    ensures |data| >= 1 ==> data == [data[0]] + r
  {
    if |data| == 0 then [] else data[1..]
  }

  /** `getOrCreateSheet`: fails with the fixed message when the spreadsheet
      cannot be opened, returns the existing sheet untouched, and otherwise
      creates the sheet holding only the header row. */
  function GetOrCreateSheet(wb: Workbook): (r: Access)
    ensures r.AccessFailed? <==> !wb.reachable
    ensures r.AccessFailed? ==> r.error == SheetAccessError
    ensures r.Opened? && wb.sheet.Some? ==> r.rows == wb.sheet.value
    ensures r.Opened? && wb.sheet.None? ==> r.rows == [Header]
  {
    if !wb.reachable then AccessFailed(SheetAccessError)
    else if wb.sheet.Some? then Opened(wb.sheet.value)
    else Opened([Header])
  }

  /** The workbook once the sheet holds `rows`. */
  function Store(wb: Workbook, rows: seq<Row>): (r: Workbook)
    ensures r.reachable == wb.reachable && r.sheet == Some(rows)
  {
    wb.(sheet := Some(rows))
  }

  /** Opening the sheet a second time, after the first call's result has been
      stored, yields the same rows: creation happens at most once. */
  lemma GetOrCreateSheetIdempotent(wb: Workbook)
    requires wb.reachable
    ensures GetOrCreateSheet(Store(wb, GetOrCreateSheet(wb).rows)) == GetOrCreateSheet(wb)
    ensures wb.sheet.Some? ==> Store(wb, GetOrCreateSheet(wb).rows) == wb
  {
  }

  /** `sheet.deleteRow(n)`: removes the row with 1-based number `n`; rows
      above it keep their place and rows below it move up by one. */
  function DeleteRow(rows: seq<Row>, n: nat): (r: seq<Row>)
    requires 1 <= n <= |rows|
    ensures |r| == |rows| - 1
    ensures forall j :: 0 <= j < n - 1 ==> r[j] == rows[j]
    ensures forall j :: n - 1 <= j < |r| ==> r[j] == rows[j + 1]
  {
    rows[..n - 1] + rows[n..]
  }
}

=== FILE: stats.dfy ===
/** `getSubmissionStats`: one pass over the data rows counting all rows, the
    rows dated today, the rows of the trailing seven days and the rows per
    Source value. The clock (`new Date()`) and the calendar day of an
    instant (`toDateString`) are parameters. */
module Stats {
  import opened Optional
  import opened Sheet

  const DayMs: int := 24 * 60 * 60 * 1000
  const WeekMs: int := 7 * DayMs

  datatype SubmissionStats = SubmissionStats(total: nat, today: nat, thisWeek: nat, bySource: map<Cell, nat>)

  const NoStats: SubmissionStats := SubmissionStats(0, 0, 0, map[])

  /** The row's timestamp is a valid date on the same calendar day as `now`.
      An invalid date never matches: its date string is "Invalid Date". */
  predicate IsToday(r: Row, now: int, day: int -> int) {
    var t := InstantOf(r[TimestampCol]);
    t.Some? && day(t.value) == day(now)
  }

  /** The row's timestamp is a valid date no earlier than `weekAgo`; an
      invalid date compares as NaN and so is never counted. */
  predicate IsSince(r: Row, weekAgo: int) {
    var t := InstantOf(r[TimestampCol]);
    t.Some? && t.value >= weekAgo
  }

  /** Number of rows dated today. */
  function CountToday(rs: seq<Row>, now: int, day: int -> int): (n: nat)
    ensures n <= |rs|
  {
    if rs == [] then 0
    else CountToday(rs[..|rs| - 1], now, day) + (if IsToday(rs[|rs| - 1], now, day) then 1 else 0)
  }

  /** Number of rows dated at or after `weekAgo`. */
  function CountSince(rs: seq<Row>, weekAgo: int): (n: nat)
    ensures n <= |rs|
  {
    if rs == [] then 0
    else CountSince(rs[..|rs| - 1], weekAgo) + (if IsSince(rs[|rs| - 1], weekAgo) then 1 else 0)
  }

  /** `m[k] = (m[k] || 0) + 1`: one more occurrence of `k`, nothing else
      changes. */
  function Bump(m: map<Cell, nat>, k: Cell): (m': map<Cell, nat>)
    ensures m'.Keys == m.Keys + {k}
    ensures m'[k] == (if k in m then m[k] else 0) + 1
    ensures forall j :: j in m && j != k ==> m'[j] == m[j]
  {
    m[k := (if k in m then m[k] else 0) + 1]
  }

  /** The per-source map the loop builds, one row at a time in sheet order. */
  function Tally(rs: seq<Row>): map<Cell, nat>
  {
    if rs == [] then map[] else Bump(Tally(rs[..|rs| - 1]), rs[|rs| - 1][SourceCol])
  }

  /** Reference count: how many rows carry Source value `k`. */
  function Occurrences(rs: seq<Row>, k: Cell): nat
  {
    if rs == [] then 0
    else (if rs[0][SourceCol] == k then 1 else 0) + Occurrences(rs[1..], k)
  }

  lemma {:induction false} OccurrencesAppend(rs: seq<Row>, r: Row, k: Cell)
    ensures Occurrences(rs + [r], k) == Occurrences(rs, k) + (if r[SourceCol] == k then 1 else 0)
  {
    if rs == [] {
      assert [r][1..] == [];
    } else {
      assert (rs + [r])[1..] == rs[1..] + [r];
      OccurrencesAppend(rs[1..], r, k);
    }
  }

  /** The per-source map holds exactly the Source values that occur, each
      mapped to its number of occurrences. */
  lemma {:induction false} TallyIsOccurrences(rs: seq<Row>, k: Cell)
    ensures k in Tally(rs) <==> Occurrences(rs, k) > 0
    ensures k in Tally(rs) ==> Tally(rs)[k] == Occurrences(rs, k)
  {
    if rs != [] {
      var init, last := rs[..|rs| - 1], rs[|rs| - 1];
      assert rs == init + [last];
      TallyIsOccurrences(init, k);
      OccurrencesAppend(init, last, k);
    }
  }

  /** Sum of `m`'s values over the keys in `keys`. */
  ghost function SumOver(m: map<Cell, nat>, keys: set<Cell>): nat
    requires keys <= m.Keys
    decreases keys
  {
    if keys == {} then 0
    else
      var k :| k in keys;
      m[k] + SumOver(m, keys - {k})
  }

  /** Sum of all values of `m`. */
  ghost function SumValues(m: map<Cell, nat>): nat
  {
    SumOver(m, m.Keys)
  }

  /** The sum does not depend on which key is taken out first. */
  lemma {:induction false} SumOverRemove(m: map<Cell, nat>, keys: set<Cell>, k: Cell)
    requires keys <= m.Keys && k in keys
    ensures SumOver(m, keys) == m[k] + SumOver(m, keys - {k})
    decreases keys
  {
    var j :| j in keys && SumOver(m, keys) == m[j] + SumOver(m, keys - {j});
    if j != k {
      SumOverRemove(m, keys - {j}, k);
      SumOverRemove(m, keys - {k}, j);
      assert keys - {j} - {k} == keys - {k} - {j};
    }
  }

  /** Two maps that agree on `keys` have the same sum over `keys`. */
  lemma {:induction false} SumOverAgree(m: map<Cell, nat>, m': map<Cell, nat>, keys: set<Cell>)
    requires keys <= m.Keys && keys <= m'.Keys
    requires forall j :: j in keys ==> m[j] == m'[j]
    ensures SumOver(m, keys) == SumOver(m', keys)
    decreases keys
  {
    if keys != {} {
      var k :| k in keys && SumOver(m, keys) == m[k] + SumOver(m, keys - {k});
      SumOverRemove(m', keys, k);
      SumOverAgree(m, m', keys - {k});
    }
  }

  /** Counting one more occurrence adds one to the sum. */
  lemma BumpAddsOne(m: map<Cell, nat>, k: Cell)
    ensures SumValues(Bump(m, k)) == SumValues(m) + 1
  {
    var m' := Bump(m, k);
    SumOverRemove(m', m'.Keys, k);
    var rest := m'.Keys - {k};
    SumOverAgree(m, m', rest);
    if k in m {
      SumOverRemove(m, m.Keys, k);
      assert m.Keys - {k} == rest;
    } else {
      assert m.Keys == rest;
    }
  }

  /** Every data row is counted under exactly one source: the per-source
      counts add up to the number of rows. */
  lemma {:induction false} TallySum(rs: seq<Row>)
    ensures SumValues(Tally(rs)) == |rs|
  {
    if rs != [] {
      TallySum(rs[..|rs| - 1]);
      BumpAddsOne(Tally(rs[..|rs| - 1]), rs[|rs| - 1][SourceCol]);
    }
  }

  /** The loop of `getSubmissionStats` over the values of the data range.
      Fewer than two rows give all-zero counts and an empty map; otherwise
      row 0 is skipped as the header and every other row is counted once in
      `total`, at most once in `today` and `thisWeek`, and once under its
      Source value. */
  method ComputeStats(data: seq<Row>, now: int, day: int -> int) returns (st: SubmissionStats)
    ensures |data| <= 1 ==> st == NoStats
    ensures st.total == |DataRows(data)|
    ensures st.today == CountToday(DataRows(data), now, day)
    ensures st.thisWeek == CountSince(DataRows(data), now - WeekMs)
    ensures st.today <= st.total && st.thisWeek <= st.total
    ensures forall k :: k in st.bySource <==> Occurrences(DataRows(data), k) > 0
    ensures forall k :: k in st.bySource ==> st.bySource[k] == Occurrences(DataRows(data), k)
    ensures SumValues(st.bySource) == st.total
  {
    if |data| <= 1 {
      return NoStats;
    }
    var weekAgo := now - WeekMs;
    var todayCount := 0;
    var weekCount := 0;
    var sourceCount: map<Cell, nat> := map[];
    var i := 1;
    while i < |data|
      invariant 1 <= i <= |data|
      invariant todayCount == CountToday(data[1..i], now, day)
      invariant weekCount == CountSince(data[1..i], weekAgo)
      invariant sourceCount == Tally(data[1..i])
    {
      var row := data[i];
      assert data[1..i + 1][..i - 1] == data[1..i];
      if IsToday(row, now, day) {
        todayCount := todayCount + 1;
      }
      if IsSince(row, weekAgo) {
        weekCount := weekCount + 1;
      }
      sourceCount := Bump(sourceCount, row[SourceCol]);
      i := i + 1;
    }
    assert data[1..i] == DataRows(data);
    forall k
      ensures k in sourceCount <==> Occurrences(DataRows(data), k) > 0
      ensures k in sourceCount ==> sourceCount[k] == Occurrences(DataRows(data), k)
    {
      TallyIsOccurrences(DataRows(data), k);
    }
    TallySum(DataRows(data));
    st := SubmissionStats(|data| - 1, todayCount, weekCount, sourceCount);
  }

  /** `getSubmissionStats`: opens (or creates) the sheet and counts its rows;
      when the spreadsheet cannot be opened the error is caught and the
      result is `null`, modelled as None. */
  method GetSubmissionStats(wb: Workbook, now: int, day: int -> int)
    returns (after: Workbook, st: Option<SubmissionStats>)
    ensures !wb.reachable ==> after == wb && st == None
    ensures wb.reachable ==> after == Store(wb, GetOrCreateSheet(wb).rows) && st.Some?
    ensures wb.sheet.None? ==> st == None || st == Some(NoStats)
    ensures st.Some? ==>
      var data := DataRows(GetOrCreateSheet(wb).rows);
      && st.value.total == |data|
      && st.value.today == CountToday(data, now, day)
      && st.value.thisWeek == CountSince(data, now - WeekMs)
      && st.value.today <= st.value.total
      && st.value.thisWeek <= st.value.total
      && (forall k :: k in st.value.bySource <==> Occurrences(data, k) > 0)
      && (forall k :: k in st.value.bySource ==> st.value.bySource[k] == Occurrences(data, k))
      && SumValues(st.value.bySource) == st.value.total
  {
    match GetOrCreateSheet(wb)
    case AccessFailed(_) =>
      return wb, None;
    case Opened(rows) =>
      var s := ComputeStats(rows, now, day);
      return Store(wb, rows), Some(s);
  }

  /** When no instant on `now`'s calendar day lies more than seven days
      before `now` (true of every calendar day, including those that a
      daylight-saving change lengthens), each row counted as today is also
      counted in the week, so `today <= thisWeek`. */
  lemma {:induction false} TodayWithinWeek(rs: seq<Row>, now: int, day: int -> int)
    requires forall t :: day(t) == day(now) ==> now - WeekMs <= t
    ensures CountToday(rs, now, day) <= CountSince(rs, now - WeekMs)
  {
    if rs != [] {
      TodayWithinWeek(rs[..|rs| - 1], now, day);
    }
  }

  // The per-source map as the script writes it. `sourceCount` is a plain
  // object, so a Source value that names a member of Object.prototype does
  // not start from `undefined`. For "__proto__" the read yields the
  // prototype (truthy), and the write of the string "[object Object]1" is
  // ignored by the accessor: the row is counted in `total` but under no
  // source. For every other inherited name the read yields a function
  // (truthy), `+ 1` concatenates, and the own property created holds a
  // string rather than a count.

  const ProtoKey: Cell := Text("__proto__")

  /** The other property names a plain object inherits from Object.prototype. */
  const InheritedKeys: set<Cell> :=
    {Text("constructor"), Text("__defineGetter__"), Text("__defineSetter__"),
     Text("hasOwnProperty"), Text("__lookupGetter__"), Text("__lookupSetter__"),
     Text("isPrototypeOf"), Text("propertyIsEnumerable"), Text("toString"),
     Text("valueOf"), Text("toLocaleString")}

  /** A property value of the script's `sourceCount`: a count, or the string
      that `+ 1` concatenation leaves behind (its text is not modelled). */
  datatype Entry = Count(n: nat) | Concatenated

  /** `sourceCount[source] = (sourceCount[source] || 0) + 1` on a plain
      object. An own count goes up by one; an own string stays a string; a
      fresh ordinary key starts at 1; a fresh inherited name becomes a
      string; "__proto__" is never stored. */
  function BumpAsWritten(m: map<Cell, Entry>, k: Cell): (m': map<Cell, Entry>)
    ensures k == ProtoKey ==> m' == m
    ensures k != ProtoKey ==> m'.Keys == m.Keys + {k}
    ensures forall j :: j in m && j != k ==> m'[j] == m[j]
    ensures k != ProtoKey && k !in m && k !in InheritedKeys ==> m'[k] == Count(1)
    ensures k != ProtoKey && k !in m && k in InheritedKeys ==> m'[k] == Concatenated
    ensures k != ProtoKey && k in m && m[k].Count? ==> m'[k] == Count(m[k].n + 1)
    ensures k != ProtoKey && k in m && m[k].Concatenated? ==> m'[k] == Concatenated
  {
    if k == ProtoKey then m
    else if k in m then m[k := if m[k].Count? then Count(m[k].n + 1) else Concatenated]
    else if k in InheritedKeys then m[k := Concatenated]
    else m[k := Count(1)]
  }

  /** The per-source object the script builds: "__proto__" never becomes a
      key. */
  function TallyAsWritten(rs: seq<Row>): (m: map<Cell, Entry>)
    ensures ProtoKey !in m
  {
    if rs == [] then map[] else BumpAsWritten(TallyAsWritten(rs[..|rs| - 1]), rs[|rs| - 1][SourceCol])
  }

  /** What the script's object shows for the correct counts `m`: no
      "__proto__" key, a string for every inherited name, and the count
      itself for every other key. */
  function ScriptView(m: map<Cell, nat>): (v: map<Cell, Entry>)
    ensures v.Keys == m.Keys - {ProtoKey}
    ensures forall k :: k in v && k in InheritedKeys ==> v[k] == Concatenated
    ensures forall k :: k in v && k !in InheritedKeys ==> v[k] == Count(m[k])
  {
    map k | k in m && k != ProtoKey :: if k in InheritedKeys then Concatenated else Count(m[k])
  }

  /** Counting one more row commutes with taking the script's view. */
  lemma BumpAsWrittenIsViewOfBump(m: map<Cell, nat>, k: Cell)
    ensures BumpAsWritten(ScriptView(m), k) == ScriptView(Bump(m, k))
  {
    var lhs, rhs := BumpAsWritten(ScriptView(m), k), ScriptView(Bump(m, k));
    assert lhs.Keys == rhs.Keys;
    forall j | j in lhs ensures lhs[j] == rhs[j] {
    }
  }

  /** The script's per-source object is exactly the script's view of the
      corrected counts: it differs from them only at "__proto__" (missing)
      and at the other inherited names (strings instead of counts). */
  lemma {:induction false} TallyAsWrittenIsScriptView(rs: seq<Row>)
    ensures TallyAsWritten(rs) == ScriptView(Tally(rs))
  {
    if rs == [] {
      assert ScriptView(map[]) == map[];
    } else {
      var init := rs[..|rs| - 1];
      TallyAsWrittenIsScriptView(init);
      BumpAsWrittenIsViewOfBump(Tally(init), rs[|rs| - 1][SourceCol]);
    }
  }

  /** On a sheet where no data row's source names an Object.prototype
      member, the script's per-source object holds the correct counts. */
  lemma TallyAsWrittenAgreesWithoutInherited(rs: seq<Row>)
    requires forall r | r in rs :: r[SourceCol] != ProtoKey && r[SourceCol] !in InheritedKeys
    ensures TallyAsWritten(rs) == map k | k in Tally(rs) :: Count(Tally(rs)[k])
  {
    TallyAsWrittenIsScriptView(rs);
    forall k | k == ProtoKey || k in InheritedKeys
      ensures k !in Tally(rs)
    {
      TallyIsOccurrences(rs, k);
      NoOccurrences(rs, k);
    }
  }

  /** A sheet with one data row whose Source is "__proto__": the script
      reports `total == 1` while its per-source object is empty, whereas the
      corrected `Tally` counts the row. */
  lemma ProtoSourceIsLost()
    ensures var data := [Header, Header[SourceCol := ProtoKey]];
      && |DataRows(data)| == 1
      && TallyAsWritten(DataRows(data)) == map[]
      && SumValues(Tally(DataRows(data))) == 1
  {
    var data := [Header, Header[SourceCol := ProtoKey]];
    var rs := DataRows(data);
    assert rs[..0] == [];
    TallySum(rs);
  }

  /** A sheet with one data row whose Source is "toString": the script
      stores a string under that key where the corrected count is 1. */
  lemma InheritedSourceIsNotCounted()
    ensures var data := [Header, Header[SourceCol := Text("toString")]];
      && TallyAsWritten(DataRows(data)) == map[Text("toString") := Concatenated]
      && Tally(DataRows(data)) == map[Text("toString") := 1]
  {
    var data := [Header, Header[SourceCol := Text("toString")]];
    assert DataRows(data)[..0] == [];
  }

  lemma {:induction false} NoOccurrences(rs: seq<Row>, k: Cell)
    requires forall r | r in rs :: r[SourceCol] != k
    ensures Occurrences(rs, k) == 0
  {
    if rs != [] {
      assert rs[0] in rs;
      forall r | r in rs[1..] ensures r[SourceCol] != k {
        assert r in rs;
      }
      NoOccurrences(rs[1..], k);
    }
  }
}
